=== FILE: README.md ===
# Content admin: ordered collections and editor state machines

This project models the content-management core of a marketing website's admin
panel. The site keeps three tables in a hosted database: `page_content` (one
row of text per landing-page section, keyed by `section_id`), `products` and
`features` (feature cards). Products and features are ordered collections: each
row carries an integer `position` that fixes display order.

The model covers two layers.

- **The content service** (`src/services/contentService.ts`). Fetching a
  collection ordered by position. Creating a row one past the current maximum
  position. Updating and deleting one row by id. Reordering by writing
  `position = i + 1` for each id in turn, which stops at the first refused write.
  Folding the `page_content` rows into a record keyed by section.
- **The three admin editors** (`ProductEditor.tsx`, `FeatureEditor.tsx`,
  `ContentEditor.tsx`). Each editor is a state machine. Its state is the
  selection, the create mode, a local buffer (the product's feature list or the
  chosen icon), the row the form was last reset with, and the pending flags of
  its mutations. `Step(state, event)`
  returns the next state and the service request the event issues.

Tables are immutable maps. A products or features table is a
`map<Id, Row<D>>` in which each key is the id of its row. The service code for
those two tables is the same up to the table name, so the generic module
`OrderedTable` models both. In the table below, each `OrderedTable` row cites
one of the two copies. Database calls are parameters: whether a call was
answered or refused, and the id a new row gets (the database's fresh one, or
the one the editor's form kept). Service errors
are `Result.Err` values.

Layout: `outcome.dfy` (Option, Result, the shape of a select answer),
`text.dfy` (JavaScript `trim` and the section-label capitalisation),
`content.dfy` (row types and partial-row patches), `ordered_table.dfy`,
`content_service.dfy`, `product_editor.dfy`, `feature_editor.dfy`,
`content_editor.dfy`.

## Model

| member | source | states |
|---|---|---|
| `Text.Trim` | src/components/admin/ProductEditor.tsx:141-142 | the result is an infix of the input; everything cut from either end is JavaScript whitespace; the result neither starts nor ends with whitespace; it is empty exactly when the input is all whitespace |
| `Text.Capitalize` | src/components/admin/ContentEditor.tsx:98 | the label has the key's length, its first character is the key's first character upper-cased (never a lower-case letter), the rest is the key unchanged, and a key not starting with a lower-case letter is its own label |
| `Text.CapitalizeIdempotent` | src/components/admin/ContentEditor.tsx:98 | capitalising a label again changes nothing |
| `Content.ContentPatchLaws` | src/services/contentService.ts:51-56 | a section update never rewrites the row id, files the row under the patch's section, is idempotent, and is the identity when the patch carries nothing |
| `Content.ProductPatchLaws` | src/services/contentService.ts:67-72 | a product update never rewrites the id, is idempotent, is the identity for an empty patch, and keeps the position when none is written |
| `Content.FeaturePatchLaws` | src/services/contentService.ts:122-127 | the same laws for feature rows |
| `OrderedTable.Fetch` | src/services/contentService.ts:22-34 | an error is thrown; a null answer gives `[]`; otherwise every row of the table comes back exactly once, sorted ascending by position |
| `OrderedTable.MaxPosition` | src/services/contentService.ts:84-91 | the largest position when the query answers on a non-empty table; 0 when the table is empty or the query fails, whose error is never checked |
| `OrderedTable.Create` | src/services/contentService.ts:83-108 | the insert succeeds exactly when the database accepts it and the id is free; the new row is the given fields under the new id, one above every existing position and one past some existing position; it is 1 when the table is empty or the max query failed; nothing else changes |
| `OrderedTable.CreateKeepsDense` | src/services/contentService.ts:139-152 | creating one past the maximum of a table with positions 1..N puts the row at N + 1 and keeps positions dense |
| `OrderedTable.FailedMaxQueryBreaksDense` | src/services/contentService.ts:140-146 | when the unchecked max query fails on a dense non-empty table, the new row at 1 duplicates an existing position |
| `OrderedTable.CreatedRowListedLast` | src/services/contentService.ts:148-155 | a row placed above every existing position is last in any position-sorted fetch that follows |
| `OrderedTable.Delete` | src/services/contentService.ts:110-120 | removes exactly the row with the given id (an unknown id is no error); every remaining row, position included, is unchanged |
| `OrderedTable.DeleteKeepsListingOrder` | src/services/contentService.ts:165-175 | a fetch after a delete is the earlier fetch with the deleted row taken out; the other rows keep their relative order, and gaps may appear |
| `OrderedTable.Reorder` | src/services/contentService.ts:192-205 | with every write accepted, each listed id holds one past its last index and unlisted rows are unchanged; at the first refused write k, the error is reported, writes 0..k-1 stay applied, no later write is made and nothing is rolled back |
| `OrderedTable.ReorderedPositions` | src/services/contentService.ts:177-190 | with distinct ids, the row of `orderedIds[i]` holds position i + 1 |
| `OrderedTable.ReorderStoppedAt` | src/services/contentService.ts:179-189 | after a reorder stopped at index k, the rows named before k hold 1..k and the rows named from k on are untouched |
| `OrderedTable.ReorderIsDense` | src/services/contentService.ts:194-204 | a complete reorder whose ids name every row once leaves positions exactly 1..N |
| `OrderedTable.FetchAfterReorder` | src/services/contentService.ts:36-48 | after such a reorder, a fetch ordered by position returns the rows in exactly the order of the ids |
| `ContentService.ToSectionMap` | src/services/contentService.ts:16-19 | every key is the section of its value; every row's section is a key; every value is one of the rows; of rows sharing a section the last one wins |
| `ContentService.FetchPageContent` | src/services/contentService.ts:5-20 | an error is thrown; a null answer gives the empty record; otherwise the rows are folded by section |
| `ContentService.FetchRecoversSections` | src/services/contentService.ts:15-19 | folding an answer that holds the table's rows, in any order and even repeated, gives back the table |
| `ContentService.UpdatePageContent` | src/services/contentService.ts:51-65 | succeeds exactly when the request is accepted and the section exists (otherwise `.single()` fails); only that section's row changes, to the patched row |
| `ContentService.UpdateProduct` | src/services/contentService.ts:67-81 | succeeds exactly when accepted and the id exists; only the row with that id changes, and it gets the patch's present fields |
| `ContentService.UpdateFeature` | src/services/contentService.ts:122-136 | the same for the features table |
| `ContentService.UpdateKeepsPositions` | src/services/contentService.ts:67-72 | an update that writes no position, or writes back the row's current position, keeps every row's position, so a dense table stays dense |
| `ContentService.UpdateFeatureKeepsPositions` | src/services/contentService.ts:122-127 | the same for a feature update |
| `ProductEditor.AddTrimmed` | src/components/admin/ProductEditor.tsx:140-145 | a blank input leaves list and input unchanged; otherwise the trimmed, non-empty text is appended at the end and the input is cleared |
| `ProductEditor.RemoveAt` | src/components/admin/ProductEditor.tsx:147-149 | an index inside the list removes exactly that element and keeps the rest in order; any other index leaves the list unchanged |
| `ProductEditor.AddThenRemove` | src/components/admin/ProductEditor.tsx:140-149 | removing the entry just added gives the list back |
| `ProductEditor.Step` | src/components/admin/ProductEditor.tsx:120-138 | only submit and delete call the service; a create goes out only in create mode and never while a create is pending; an update goes out only for the selected product's id, never while an update or create is pending; both send the local feature list; conversely an enabled submit in create mode does send the draft as a create (carrying the id the form kept), an enabled panel submit with a selection does send an update of every input with the position the form kept, and a confirmed delete always sends a delete of its id; disabled buttons do nothing; only a select or a successful create changes the row the form keeps |
| `ProductEditor.StepKeepsCoherent` | src/components/admin/ProductEditor.tsx:182-189 | the initial state is coherent and every step keeps it so: whenever the form holds a row and a product is selected, they are the same product; so an update writes back the position the form kept: the selected product's as loaded, or none once a successful create has reset the form |
| `ProductEditor.CreateAfterSelectCarriesId` | src/components/admin/ProductEditor.tsx:120-127 | after a product is selected, a create opened next, even after a cancel (whose `form.reset()` returns to the selected row), sends that product's id in the insert |
| `ProductEditor.SelectLoads` | src/components/admin/ProductEditor.tsx:184-189 | selecting a product selects it, loads its features (`[]` when null) and leaves create mode |
| `ProductEditor.SelectThenCancel` | src/components/admin/ProductEditor.tsx:324-332 | select then cancel issues no write and leaves no selection, no create mode and an empty buffer |
| `ProductEditor.CancelCreateKeepsSelection` | src/components/admin/ProductEditor.tsx:324-332 | cancelling create mode keeps an earlier selection with an emptied buffer, so saving next sends an empty feature list for that product, with the position the form kept |
| `ProductEditor.CancelResets` | src/components/admin/ProductEditor.tsx:324-332 | from every state, both cancels send nothing, empty the buffer, leave create mode and keep the row the form holds; the panel's cancel keeps the selection in create mode and clears it otherwise; the dialog's cancel (lines 462-466) keeps it |
| `ProductEditor.CreateAfterDeleteReusesId` | src/components/admin/ProductEditor.tsx:100-138 | select a product, delete it, and open a create: the insert carries the deleted product's id; the delete sends that id, and after a successful delete the table no longer holds it (so `OrderedTable.Create`'s own contract accepts the insert) |
| `ProductEditor.UpdateAfterCreateBlanksSelected` | src/components/admin/ProductEditor.tsx:76-88 | select a product, create another, and save the panel: the selection survives the create, so the update goes to the selected product with no position, the inputs the blanked form holds, and an empty feature list |
| `ProductEditor.SettledResets` | src/components/admin/ProductEditor.tsx:56-108 | update and delete success clear the selection, whichever product was deleted; create success leaves create mode with an empty buffer; a failed update keeps the selection |
| `FeatureEditor.IconNamed` | src/components/admin/FeatureEditor.tsx:17-24 | a name maps to the icon so named, and to nothing exactly when no icon has that name |
| `FeatureEditor.IconNamesRoundTrip` | src/components/admin/FeatureEditor.tsx:17-24 | names and icons correspond one to one; the offered list holds each of the six icons once |
| `FeatureEditor.Step` | src/components/admin/FeatureEditor.tsx:127-141 | the update guard of the product editor; a create goes out only in create mode, and while one is pending only through Enter in the dialog's title field (lines 342-391), which submits the form past the disabled button (lines 404-406); both send the chosen icon over the form's; conversely an enabled submit sends the draft with the chosen icon as a create in create mode (carrying the id the form kept) or as an update of the selected feature with the position the form kept, and a confirmed delete always sends a delete of its id; the chosen icon stays one of the six as long as every selected feature has one |
| `FeatureEditor.StepKeepsCoherent` | src/components/admin/FeatureEditor.tsx:180-185 | the initial state is coherent and every step keeps it so: whenever the form holds a row and a feature is selected they are the same feature, so an update writes back the position the form kept: the selected feature's as loaded, or none once a successful create has reset the form |
| `FeatureEditor.CreateAfterSelectCarriesId` | src/components/admin/FeatureEditor.tsx:127-135 | after a feature is selected, a create opened next, even after a cancel, sends that feature's id in the insert |
| `FeatureEditor.IconChoice` | src/components/admin/FeatureEditor.tsx:268-275 | the editor starts on "Users"; picking an icon makes its name the chosen one |
| `FeatureEditor.SelectLoads` | src/components/admin/FeatureEditor.tsx:180-185 | selecting a feature selects it, chooses its icon and leaves create mode |
| `FeatureEditor.CancelResetsIcon` | src/components/admin/FeatureEditor.tsx:289-297 | panel cancel leaves create mode or clears the selection; both cancels and create success return the icon to "Users" |
| `FeatureEditor.CreateAfterDeleteReusesId` | src/components/admin/FeatureEditor.tsx:108-141 | select a feature, delete it, and open a create: the insert carries the deleted feature's id; the delete sends that id, and after a successful delete the table no longer holds it |
| `FeatureEditor.UpdateAfterCreateBlanksSelected` | src/components/admin/FeatureEditor.tsx:83-96 | select a feature, create another, and save the panel: the update goes to the still-selected feature with no position, the blanked inputs and the icon "Users" |
| `FeatureEditor.EnterCreatesWhilePending` | src/components/admin/FeatureEditor.tsx:342-406 | while a create is pending the dialog's create button sends nothing, but Enter in the title field sends another create |
| `FeatureEditor.SettledClearsSelection` | src/components/admin/FeatureEditor.tsx:61-116 | update and delete success clear the selection unconditionally |
| `ContentEditor.SelectedContent` | src/components/admin/ContentEditor.tsx:25 | present exactly when a (truthy) section is selected and fetched; then it is that section's row |
| `ContentEditor.Menu` | src/components/admin/ContentEditor.tsx:88-98 | one entry per key of the fetched record, labelled with the key capitalised |
| `ContentEditor.Step` | src/components/admin/ContentEditor.tsx:61-68 | a write goes out only for a selected section and not while one is pending; it names the selected section whatever the form holds; with no selection nothing happens; select loads the row; a settled update only clears the pending flag |
| `ContentEditor.SubmitTouchesOnlySelectedSection` | src/components/admin/ContentEditor.tsx:64-67 | an accepted submit writes the submitted values into the selected section's row and leaves every other section unchanged |
| `ContentEditor.SelectThenSelectedContent` | src/components/admin/ContentEditor.tsx:93-96 | after selecting a listed section, the selected content is its fetched row |

## Behaviour of the code worth knowing

- No editor calls `reorderProducts` or `reorderFeatures`
  (contentService.ts:177-205), so reorder is modelled only as the service
  function.
- Reorder has no rollback (contentService.ts:179-189): the writes before a
  refused one stay. `OrderedTable.Reorder` states the partial state exactly.
- A successful delete clears the selection whichever row was deleted
  (ProductEditor.tsx:108, FeatureEditor.tsx:115).
- Create gives position 1 when the max query fails, because that query's error
  is never read (contentService.ts:85-91). `OrderedTable.FailedMaxQueryBreaksDense`
  shows the duplicate position that follows.
- Both entity editors spread the whole form value into the payload
  (ProductEditor.tsx:120-134, FeatureEditor.tsx:127-141), and the form keeps
  every field of the row it was last reset with (ProductEditor.tsx:186,
  FeatureEditor.tsx:182). A successful create resets the form to blank values
  (ProductEditor.tsx:83-87, FeatureEditor.tsx:90-94). So:
  - an update writes back the position the form kept: the selected row's,
    or none once a successful create has reset the form;
  - a successful create keeps the selection while blanking the form
    (ProductEditor.tsx:76-88, FeatureEditor.tsx:83-96). Saving the panel next
    overwrites the still-selected row with the blanked inputs, an empty feature
    list (products) or the icon "Users" (features). The editors'
    `UpdateAfterCreateBlanksSelected` lemmas state this;
  - a create sends the id of the row a select last loaded into the form,
    unless a successful create has reset the form since. `OrderedTable.Create`
    refuses that insert while the row exists, because its id is taken;
  - after the selected row is deleted, a create reuses the deleted row's id,
    and `OrderedTable.Create` accepts it because the id is free again.

  The editors' `CreateAfterSelectCarriesId` and `CreateAfterDeleteReusesId`
  lemmas show which id the create carries. `OrderedTable.Create`'s contract
  (success exactly when the insert is accepted and the id is free) gives the
  outcome.
- The feature editor's create dialog has one text input and no submit button
  inside its form (FeatureEditor.tsx:342-391). Pressing Enter in the title field
  submits that form directly, without the create button's pending check
  (lines 404-406), so a second create can go out while one is pending
  (`FeatureEditor.EnterCreatesWhilePending`). The product dialog has three text
  inputs, so Enter submits nothing there.

## Left out

- The database client's internals (`from/select/eq/single`), the query cache and its invalidation, toasts and console logging. Every call is modelled as accepted or refused.
- The `useState(() => …)` blocks used as effects. They run once when the component mounts; only the explicit handlers are modelled.
- Authentication (`AdminContext.tsx`, `LoginForm.tsx`), the contact form's webhook, and all rendering and animation components. They are glue around external calls or static markup.
- Concurrency between admin sessions, and the race between the max query and the insert in create. The code awaits each call in turn, and the model runs them in that order.
- `created_at` and `updated_at` are not modelled, because the database clock sets them. Ids of new rows are a parameter. An insert whose id is already taken is refused.
- A null `position` is identified with 0, as `|| 0` does in the create functions.
- OrderedTable.MaxPosition: the max query sorts descending (contentService.ts:88), and the database lists nulls first in a descending sort. So a single null position makes the code read 0 and put every new row at 1. The model takes the largest position instead.
- OrderedTable.Fetch: the database lists null positions last in an ascending sort. The model sorts them as 0, that is, before every positive position.
- `page_content` is modelled as a map keyed by `section_id`, which assumes section keys are unique in the table. Duplicate keys are modelled only in the fetched array that `ToSectionMap` folds.
- The form's inputs are not modelled. A submit event carries the values of the inputs. The entity editors keep the row the form was last reset with, and its id and position go into the payload. This relies on the form library's default: `reset(row)` keeps every field of `row`, `reset()` returns to the values of the last `reset(row)`, and submit passes all of them.
- ProductEditor.Step and FeatureEditor.Step: the timestamps the kept row carries are written back too. They are not modelled, because timestamps are not.
- ContentEditor.Step: the kept row's `id` is written back unchanged and is not modelled. The section key is overwritten with the selected one.
- Deletes have no pending flag, because the code shows none. A list-row delete is an event for any id.
- OrderedTable.Fetch: the order of rows with equal positions is left open, as the database leaves it.
- Text.Capitalize: only the ASCII letters a-z are upper-cased. Full Unicode case mapping (which may change the length) and UTF-16 code units are not modelled.
- ContentEditor.Menu: the menu is a set of keys and labels. JavaScript's `Object.keys` order is not modelled.

=== FILE: content.dfy ===
/** The row shapes of the three tables and the partial rows the service writes. */
module Content {
  import opened Outcome

  type Id = string

  /** A `page_content` row: the editable text of one landing-page section. */
  datatype PageContent = PageContent(
    id: Id,
    sectionId: string,
    title: string,
    description: Option<string>,
    imageUrl: Option<string>)

  /** The payload of a `products` row. `features` may be null in a stored row. */
  datatype ProductFields = ProductFields(
    title: string,
    description: string,
    imageUrl: Option<string>,
    features: Option<seq<string>>)

  /** The payload of a `features` row (a feature card). */
  datatype FeatureFields = FeatureFields(
    title: string,
    description: string,
    icon: string)

  /** A row of an ordered collection. The service reads and writes `position`
      although the row types it declares omit it; a null position reads as 0. */
  datatype Row<D> = Row(id: Id, position: int, fields: D)

  type Product = Row<ProductFields>
  type Feature = Row<FeatureFields>

  /** `Partial<PageContent>` as the section editor sends it: `sectionId` selects the row. */
  datatype ContentPatch = ContentPatch(
    sectionId: string,
    title: Option<string>,
    description: Option<Option<string>>,
    imageUrl: Option<Option<string>>)

  /** `Partial<Product> & { id }`: `id` selects the row, absent fields are not written. */
  datatype ProductPatch = ProductPatch(
    id: Id,
    position: Option<int>,
    title: Option<string>,
    description: Option<string>,
    imageUrl: Option<Option<string>>,
    features: Option<seq<string>>)

  /** `Partial<Feature> & { id }`. */
  datatype FeaturePatch = FeaturePatch(
    id: Id,
    position: Option<int>,
    title: Option<string>,
    description: Option<string>,
    icon: Option<string>)

  /** The row a `page_content` update leaves behind: present fields overwritten. */
  function PatchContent(row: PageContent, p: ContentPatch): PageContent {
    PageContent(
      row.id,
      p.sectionId,
      p.title.GetOr(row.title),
      p.description.GetOr(row.description),
      p.imageUrl.GetOr(row.imageUrl))
  }

  /** The row a `products` update leaves behind. */
  function PatchProduct(row: Product, p: ProductPatch): Product {
    Row(
      row.id,
      p.position.GetOr(row.position),
      ProductFields(
        p.title.GetOr(row.fields.title),
        p.description.GetOr(row.fields.description),
        p.imageUrl.GetOr(row.fields.imageUrl),
        if p.features.Some? then Some(p.features.value) else row.fields.features))
  }

  /** The row a `features` update leaves behind. */
  function PatchFeature(row: Feature, p: FeaturePatch): Feature {
    Row(
      row.id,
      p.position.GetOr(row.position),
      FeatureFields(
        p.title.GetOr(row.fields.title),
        p.description.GetOr(row.fields.description),
        p.icon.GetOr(row.fields.icon)))
  }

  /** A patch carrying no field leaves a product row as it was; writing the same
      patch twice is the same as writing it once; the id is never rewritten. */
  lemma ProductPatchLaws(row: Product, p: ProductPatch)
    ensures PatchProduct(row, p).id == row.id
    ensures PatchProduct(PatchProduct(row, p), p) == PatchProduct(row, p)
    ensures p.position.None? && p.title.None? && p.description.None? && p.imageUrl.None? && p.features.None?
            ==> PatchProduct(row, p) == row
    ensures p.position.None? ==> PatchProduct(row, p).position == row.position
  {
  }

  /** The same laws for feature rows. */
  lemma FeaturePatchLaws(row: Feature, p: FeaturePatch)
    ensures PatchFeature(row, p).id == row.id
    ensures PatchFeature(PatchFeature(row, p), p) == PatchFeature(row, p)
    ensures p.position.None? && p.title.None? && p.description.None? && p.icon.None?
            ==> PatchFeature(row, p) == row
    ensures p.position.None? ==> PatchFeature(row, p).position == row.position
  {
  }

  /** The same laws for section rows, whose key is rewritten to the patch's own. */
  lemma ContentPatchLaws(row: PageContent, p: ContentPatch)
    ensures PatchContent(row, p).id == row.id
    ensures PatchContent(row, p).sectionId == p.sectionId
    ensures PatchContent(PatchContent(row, p), p) == PatchContent(row, p)
    ensures p.sectionId == row.sectionId && p.title.None? && p.description.None? && p.imageUrl.None?
            ==> PatchContent(row, p) == row
  {
  }
}

=== FILE: content_editor.dfy ===
/** The admin panel's section editor as a state machine over the fetched
    record of sections: a selected section key, the row last loaded into the
    form, and the pending flag of the update mutation. */
module ContentEditor {
  import opened Outcome
  import opened Content
  import opened ContentService
  import Text

  /** What the title, description and image inputs hold at submit. */
  datatype Draft = Draft(title: string, description: Option<string>, imageUrl: Option<string>)

  datatype State = State(
    selectedSection: Option<string>,
    loaded: Option<PageContent>,  // the row the form was last reset to
    updatePending: bool)

  const Initial := State(None, None, false)

  datatype Request = NoRequest | UpdateContent(patch: ContentPatch)

  datatype Event =
    | Select(key: string)   // a section button in the menu
    | Submit(data: Draft)   // the save button
    | UpdateSettled(ok: bool)

  /** A section counts as selected when the key is present and, as a
      JavaScript condition, truthy: the empty key counts as no selection. */
  predicate HasSelection(s: State) {
    s.selectedSection.Some? && s.selectedSection.value != ""
  }

  /** `selectedContent`: the fetched row of the selected section, or nothing. */
  function SelectedContent(content: SectionTable, s: State): (r: Option<PageContent>)
    ensures r.Some? <==> HasSelection(s) && s.selectedSection.value in content
    ensures r.Some? ==> r.value.sectionId == s.selectedSection.value && r.value == content[s.selectedSection.value]
  {
    if HasSelection(s) && s.selectedSection.value in content then Some(content[s.selectedSection.value]) else None
  }

  /** The section menu: one button per key of the fetched record, labelled
      with the key capitalised. */
  function Menu(content: SectionTable): (r: set<(string, string)>)
    ensures forall key :: key in content <==> (key, Text.Capitalize(key)) in r
    ensures forall entry | entry in r :: entry.0 in content && entry.1 == Text.Capitalize(entry.0)
  {
    set key | key in content :: (key, Text.Capitalize(key))
  }

  function Step(content: SectionTable, s: State, e: Event): (r: (State, Request))
    // a write goes out only for a selected section, never while one is pending,
    // and always names the selected section whatever the form holds
    ensures r.1.UpdateContent? ==>
      && e.Submit? && HasSelection(s) && !s.updatePending && r.0.updatePending
      && r.1.patch == ContentPatch(s.selectedSection.value, Some(e.data.title), Some(e.data.description), Some(e.data.imageUrl))
    ensures e.Submit? && !HasSelection(s) ==> r == (s, NoRequest)
    // selecting a listed section loads its row
    ensures e.Select? && e.key in content ==>
      r.0.selectedSection == Some(e.key) && r.0.loaded == Some(content[e.key]) && r.1 == NoRequest
    // a settled update only clears the pending flag
    ensures e.UpdateSettled? ==> r.0 == s.(updatePending := false) && r.1 == NoRequest
  {
    match e
    case Select(key) =>
      if key in content then (s.(selectedSection := Some(key), loaded := Some(content[key])), NoRequest)
      else (s, NoRequest)
    case Submit(data) =>
      if !HasSelection(s) || s.updatePending then (s, NoRequest)
      else
        var p := ContentPatch(s.selectedSection.value, Some(data.title), Some(data.description), Some(data.imageUrl));
        (s.(updatePending := true), UpdateContent(p))
    case UpdateSettled(ok) => (s.(updatePending := false), NoRequest)
  }

  /** Submitting the form for a selected section, and the database accepting
      the write, changes that section's row to the submitted values and leaves
      every other section as it was. */
  lemma SubmitTouchesOnlySelectedSection(content: SectionTable, table: SectionTable, s: State, data: Draft)
    requires HasSelection(s) && !s.updatePending && s.selectedSection.value in table
    ensures var (_, req) := Step(content, s, Submit(data));
      && req.UpdateContent?
      && var r := UpdatePageContent(table, req.patch, true);
      && r.Ok?
      && var (table', row) := r.value;
      && table'.Keys == table.Keys
      && (forall k | k in table && k != s.selectedSection.value :: table'[k] == table[k])
      && row.title == data.title && row.description == data.description && row.imageUrl == data.imageUrl
      && row.id == table[s.selectedSection.value].id && row.sectionId == s.selectedSection.value
  {
  }

  /** After selecting a listed section, the selected content is its fetched row. */
  lemma SelectThenSelectedContent(content: SectionTable, s: State, key: string)
    requires key in content && key != ""
    ensures SelectedContent(content, Step(content, s, Select(key)).0) == Some(content[key])
  {
  }
}

=== FILE: content_service.dfy ===
/** The service functions over `page_content` and the per-entity updates of
    `products` and `features`. The ordered-collection operations shared by the
    two entity tables (fetch, create, delete, reorder) are in `OrderedTable`. */
module ContentService {
  import opened Outcome
  import opened Content
  import opened OrderedTable

  /** The `page_content` table: every row filed under its section key. */
  type SectionTable = t: map<string, PageContent> | forall k | k in t :: t[k].sectionId == k witness map[]

  /** The `reduce` in `fetchPageContent`: rows folded, in order, into a record
      keyed by section. Every key is the section of its value, every row's
      section is a key, every value is one of the rows, and when two rows share
      a section the later one wins. */
  function ToSectionMap(rows: seq<PageContent>): (m: SectionTable)
    ensures forall i | 0 <= i < |rows| :: rows[i].sectionId in m
    ensures forall k | k in m :: exists i | 0 <= i < |rows| :: rows[i] == m[k]
    ensures forall i | 0 <= i < |rows| ::
      (forall j | i < j < |rows| :: rows[j].sectionId != rows[i].sectionId) ==> m[rows[i].sectionId] == rows[i]
  {
    if |rows| == 0 then map[]
    else
      var init := rows[..|rows| - 1];
      var last := rows[|rows| - 1];
      var m := ToSectionMap(init);
      SectionMapSnoc(rows, m);
      m[last.sectionId := last]
  }

  /** The step of the fold: the record for all rows but the last, with the last
      row filed under its section. */
  lemma SectionMapSnoc(rows: seq<PageContent>, m: SectionTable)
    requires |rows| > 0
    requires var init := rows[..|rows| - 1];
      && (forall i | 0 <= i < |init| :: init[i].sectionId in m)
      && (forall k | k in m :: exists i | 0 <= i < |init| :: init[i] == m[k])
      && (forall i | 0 <= i < |init| ::
            (forall j | i < j < |init| :: init[j].sectionId != init[i].sectionId) ==> m[init[i].sectionId] == init[i])
    ensures var m' := m[rows[|rows| - 1].sectionId := rows[|rows| - 1]];
      && (forall i | 0 <= i < |rows| :: rows[i].sectionId in m')
      && (forall k | k in m' :: exists i | 0 <= i < |rows| :: rows[i] == m'[k])
      && (forall i | 0 <= i < |rows| ::
            (forall j | i < j < |rows| :: rows[j].sectionId != rows[i].sectionId) ==> m'[rows[i].sectionId] == rows[i])
  {
    var n := |rows| - 1;
    var init := rows[..n];
    var last := rows[n];
    var m' := m[last.sectionId := last];
    assert forall i | 0 <= i < n :: init[i] == rows[i];
    forall k | k in m'
      ensures exists i | 0 <= i < |rows| :: rows[i] == m'[k]
    {
      if k == last.sectionId {
        assert rows[n] == m'[k];
      } else {
        var i :| 0 <= i < |init| && init[i] == m[k];
        assert rows[i] == m'[k];
      }
    }
    forall i | 0 <= i < |rows| && (forall j | i < j < |rows| :: rows[j].sectionId != rows[i].sectionId)
      ensures m'[rows[i].sectionId] == rows[i]
    {
      if i < n {
        assert rows[n].sectionId != rows[i].sectionId;
        assert forall j | i < j < |init| :: init[j] == rows[j];
      }
    }
  }

  /** `fetchPageContent`: an error is thrown, a null answer gives the empty
      record, and otherwise the answered rows are folded by section. */
  function FetchPageContent(reply: Reply, rows: seq<PageContent>): (r: Result<SectionTable>)
    ensures r.Err? <==> reply == Error
    ensures reply == NullData ==> r == Ok(map[])
    ensures reply == Data ==> r.Ok? && forall i | 0 <= i < |rows| :: rows[i].sectionId in r.value
    ensures r.Ok? ==> forall k | k in r.value :: exists i | 0 <= i < |rows| :: rows[i] == r.value[k]
  {
    match reply
    case Error => Err(Rejected)
    case NullData => Ok(map[])
    case Data => Ok(ToSectionMap(rows))
  }

  /** Folding an answer that holds the rows of the table, in any order and even
      repeated, gives back the table. */
  lemma FetchRecoversSections(t: SectionTable, rows: seq<PageContent>)
    requires forall i | 0 <= i < |rows| :: rows[i].sectionId in t && t[rows[i].sectionId] == rows[i]
    requires forall k | k in t :: exists i | 0 <= i < |rows| :: rows[i].sectionId == k
    ensures FetchPageContent(Data, rows) == Ok(t)
  {
    var m := ToSectionMap(rows);
    forall k | k in t
      ensures k in m
    {
      var i :| 0 <= i < |rows| && rows[i].sectionId == k;
    }
    forall k | k in m
      ensures k in t
    {
      var i :| 0 <= i < |rows| && rows[i] == m[k];
    }
    assert m.Keys == t.Keys;
    forall k | k in m
      ensures m[k] == t[k]
    {
      var i :| 0 <= i < |rows| && rows[i] == m[k];
    }
    assert m == t;
  }

  /** `updatePageContent`: rewrite the present fields of the one row keyed by
      `p.sectionId`. A refused request, or one that matches no row (the
      `.single()` then fails), throws and leaves the table as it was. */
  function UpdatePageContent(t: SectionTable, p: ContentPatch, ok: bool): (r: Result<(SectionTable, PageContent)>)
    ensures r.Ok? <==> ok && p.sectionId in t
    ensures ok && p.sectionId !in t ==> r == Err(NoSingleRow)
    ensures r.Ok? ==> var (t', row) := r.value;
      && t'.Keys == t.Keys
      && (forall k | k in t && k != p.sectionId :: t'[k] == t[k])
      && t'[p.sectionId] == row
      && row == PatchContent(t[p.sectionId], p)
  {
    if !ok then Err(Rejected)
    else if p.sectionId !in t then Err(NoSingleRow)
    else
      var row := PatchContent(t[p.sectionId], p);
      Ok((t[p.sectionId := row], row))
  }

  /** `updateProduct`: rewrite the present fields of the row whose id is `p.id`;
      every other row, and every absent field, stays as it was. */
  function UpdateProduct(t: Table<ProductFields>, p: ProductPatch, ok: bool): (r: Result<(Table<ProductFields>, Product)>)
    ensures r.Ok? <==> ok && p.id in t
    ensures ok && p.id !in t ==> r == Err(NoSingleRow)
    ensures r.Ok? ==> var (t', row) := r.value;
      && t'.Keys == t.Keys
      && (forall k | k in t && k != p.id :: t'[k] == t[k])
      && t'[p.id] == row
      && row == PatchProduct(t[p.id], p)
  {
    if !ok then Err(Rejected)
    else if p.id !in t then Err(NoSingleRow)
    else
      var row := PatchProduct(t[p.id], p);
      Ok((t[p.id := row], row))
  }

  /** `updateFeature`: the same for the `features` table. */
  function UpdateFeature(t: Table<FeatureFields>, p: FeaturePatch, ok: bool): (r: Result<(Table<FeatureFields>, Feature)>)
    ensures r.Ok? <==> ok && p.id in t
    ensures ok && p.id !in t ==> r == Err(NoSingleRow)
    ensures r.Ok? ==> var (t', row) := r.value;
      && t'.Keys == t.Keys
      && (forall k | k in t && k != p.id :: t'[k] == t[k])
      && t'[p.id] == row
      && row == PatchFeature(t[p.id], p)
  {
    if !ok then Err(Rejected)
    else if p.id !in t then Err(NoSingleRow)
    else
      var row := PatchFeature(t[p.id], p);
      Ok((t[p.id := row], row))
  }

  /** An update that writes no position, or writes back the row's current one
      (as the editors do with the position the form kept), keeps the table's
      order: positions of all rows are unchanged, so a dense table stays dense. */
  lemma UpdateKeepsPositions(t: Table<ProductFields>, p: ProductPatch)
    requires UpdateProduct(t, p, true).Ok?
    requires p.position.None? || p.position == Some(t[p.id].position)
    ensures var t' := UpdateProduct(t, p, true).value.0;
      && (forall k | k in t :: t'[k].position == t[k].position)
      && (Dense(t) ==> Dense(t'))
  {
    var t' := UpdateProduct(t, p, true).value.0;
    assert |t'| == |t| by {
      assert t'.Keys == t.Keys;
    }
  }

  /** The same for the `features` table. */
  lemma UpdateFeatureKeepsPositions(t: Table<FeatureFields>, p: FeaturePatch)
    requires UpdateFeature(t, p, true).Ok?
    requires p.position.None? || p.position == Some(t[p.id].position)
    ensures var t' := UpdateFeature(t, p, true).value.0;
      && (forall k | k in t :: t'[k].position == t[k].position)
      && (Dense(t) ==> Dense(t'))
  {
    var t' := UpdateFeature(t, p, true).value.0;
    assert t'.Keys == t.Keys;
  }
}

=== FILE: feature_editor.dfy ===
/** The admin panel's feature-card editor as a state machine: a selection, a
    create mode, the chosen icon, the row the form was last reset with, and the
    pending flags of the update and create mutations. */
module FeatureEditor {
  import opened Outcome
  import opened Content
  import OrderedTable

  /** The icon choices offered for a feature card. */
  datatype Icon = Users | Check | Zap | Clock | BarChart | Shield

  /** The choices in the order the editor shows them. */
  const AvailableIcons: seq<Icon> := [Users, Check, Zap, Clock, BarChart, Shield]

  /** The name stored in a row's `icon` column. */
  function Name(i: Icon): string {
    match i
    case Users => "Users"
    case Check => "Check"
    case Zap => "Zap"
    case Clock => "Clock"
    case BarChart => "BarChart"
    case Shield => "Shield"
  }

  /** The icon a stored name stands for, if it is one of the choices. */
  function IconNamed(name: string): (r: Option<Icon>)
    ensures r.Some? ==> Name(r.value) == name
    ensures r.None? ==> forall i: Icon :: Name(i) != name
  {
    if name == "Users" then Some(Users)
    else if name == "Check" then Some(Check)
    else if name == "Zap" then Some(Zap)
    else if name == "Clock" then Some(Clock)
    else if name == "BarChart" then Some(BarChart)
    else if name == "Shield" then Some(Shield)
    else None
  }

  predicate IsIconName(name: string) {
    IconNamed(name).Some?
  }

  /** Names and icons correspond one to one, and the list offers each icon once. */
  lemma IconNamesRoundTrip()
    ensures forall i: Icon :: IconNamed(Name(i)) == Some(i)
    ensures forall i: Icon :: i in AvailableIcons
    ensures forall a, b | 0 <= a < b < |AvailableIcons| :: AvailableIcons[a] != AvailableIcons[b]
  {
    forall i: Icon
      ensures IconNamed(Name(i)) == Some(i) && i in AvailableIcons
    {
      match i
      case Users => assert AvailableIcons[0] == i;
      case Check => assert AvailableIcons[1] == i;
      case Zap => assert AvailableIcons[2] == i;
      case Clock => assert AvailableIcons[3] == i;
      case BarChart => assert AvailableIcons[4] == i;
      case Shield => assert AvailableIcons[5] == i;
    }
  }

  /** The icon selected when nothing else is: "Users". */
  const DefaultIcon: string := Name(Users)

  /** What the title and description inputs hold at submit; the form's own
      icon value is always overridden. */
  datatype Draft = Draft(title: string, description: string)

  datatype State = State(
    selected: Option<Feature>,
    isCreating: bool,
    selectedIcon: string,
    kept: Option<Feature>,  // the row the form was last reset with; its id and position ride along in every submit
    updatePending: bool,
    createPending: bool)

  const Initial := State(None, false, DefaultIcon, None, false, false)

  datatype Request =
    | NoRequest
    | CreateFeature(fields: FeatureFields, keptId: Option<Id>)  // the id the form kept, if any
    | UpdateFeature(patch: FeaturePatch)
    | DeleteFeature(id: Id)

  datatype Event =
    | Select(feature: Feature)   // a feature in the list is clicked
    | OpenCreate                 // the "new feature" trigger opens the dialog
    | DismissCreate              // the dialog is closed by escape or the overlay
    | PickIcon(icon: Icon)       // one of the icon buttons
    | Cancel                     // the cancel button of the edit panel
    | DialogCancel               // the cancel button of the create dialog
    | Submit(data: Draft)        // the submit button of the edit panel
    | DialogSubmit(data: Draft)  // the create button of the dialog
    | DialogEnter(data: Draft)   // Enter in the dialog's title field submits its form
    | Delete(id: Id)             // a confirmed delete in the list
    | UpdateSettled(ok: bool)
    | CreateSettled(ok: bool)
    | DeleteSettled(ok: bool)

  /** The id and the position the form holds beside its inputs: those of the
      row it was last reset with, or none. */
  function KeptId(s: State): Option<Id> {
    if s.kept.Some? then Some(s.kept.value.id) else None
  }

  function KeptPosition(s: State): Option<int> {
    if s.kept.Some? then Some(s.kept.value.position) else None
  }

  /** `onSubmit`: the whole form value is spread into the payload and the
      selected icon overrides the form's; create in create mode, otherwise
      update the selected feature by its id, otherwise nothing. */
  function Dispatch(s: State, data: Draft): Request {
    if s.isCreating then
      CreateFeature(FeatureFields(data.title, data.description, s.selectedIcon), KeptId(s))
    else if s.selected.Some? then
      UpdateFeature(FeaturePatch(s.selected.value.id, KeptPosition(s), Some(data.title), Some(data.description),
                                 Some(s.selectedIcon)))
    else
      NoRequest
  }

  function Issue(s: State, req: Request): State {
    match req
    case CreateFeature(_, _) => s.(createPending := true)
    case UpdateFeature(_) => s.(updatePending := true)
    case _ => s
  }

  predicate PanelSubmitEnabled(s: State) {
    !s.updatePending && !s.createPending
  }

  predicate DialogSubmitEnabled(s: State) {
    s.isCreating && !s.createPending
  }

  function Step(s: State, e: Event): (r: (State, Request))
    ensures !(e.Submit? || e.DialogSubmit? || e.DialogEnter? || e.Delete?) ==> r.1 == NoRequest
    // a create goes out only from create mode, with the chosen icon; only the
    // Enter key, which bypasses the disabled button, sends one while one is pending
    ensures r.1.CreateFeature? ==>
      && s.isCreating && r.0.createPending
      && (!e.DialogEnter? ==> !s.createPending)
      && r.1.fields.icon == s.selectedIcon
    ensures e.DialogEnter? && s.isCreating ==>
      r.1 == CreateFeature(FeatureFields(e.data.title, e.data.description, s.selectedIcon), KeptId(s))
    ensures e.DialogEnter? && !s.isCreating ==> r == (s, NoRequest)
    // an update goes out only for the selected feature, never while a create or update is pending
    ensures r.1.UpdateFeature? ==>
      && !s.isCreating && s.selected.Some? && !s.updatePending && !s.createPending && r.0.updatePending
      && r.1.patch.id == s.selected.value.id && r.1.patch.icon == Some(s.selectedIcon)
    // and, conversely, an enabled submit does send: the draft as a create in create mode
    ensures (e.Submit? && PanelSubmitEnabled(s)) || (e.DialogSubmit? && DialogSubmitEnabled(s)) ==>
      s.isCreating ==> r.1 == CreateFeature(FeatureFields(e.data.title, e.data.description, s.selectedIcon), KeptId(s))
    // or as an update of every input of the selected feature, with the position the form kept
    ensures e.Submit? && PanelSubmitEnabled(s) && !s.isCreating && s.selected.Some? ==>
      r.1 == UpdateFeature(FeaturePatch(s.selected.value.id, KeptPosition(s), Some(e.data.title),
                                        Some(e.data.description), Some(s.selectedIcon)))
    ensures e.Submit? && !s.isCreating && s.selected.None? ==> r.1 == NoRequest
    // a confirmed delete always goes out, for the row it names
    ensures e.Delete? <==> r.1.DeleteFeature?
    ensures e.Delete? ==> r.1 == DeleteFeature(e.id)
    // only a select or a successful create resets the form to other values
    ensures !(e.Select? || e == CreateSettled(true)) ==> r.0.kept == s.kept
    ensures e.Submit? && !PanelSubmitEnabled(s) ==> r == (s, NoRequest)
    ensures e.DialogSubmit? && !DialogSubmitEnabled(s) ==> r == (s, NoRequest)
    // the chosen icon stays one of the choices as long as every selected feature has one
    ensures IsIconName(s.selectedIcon) && (e.Select? ==> IsIconName(e.feature.fields.icon))
            ==> IsIconName(r.0.selectedIcon)
  {
    match e
    case Select(f) =>
      (s.(selected := Some(f), kept := Some(f), selectedIcon := f.fields.icon, isCreating := false), NoRequest)
    case OpenCreate => (s.(isCreating := true), NoRequest)
    case DismissCreate => (s.(isCreating := false), NoRequest)
    case PickIcon(i) => (s.(selectedIcon := Name(i)), NoRequest)
    case Cancel =>
      var s' := if s.isCreating then s.(isCreating := false) else s.(selected := None);
      (s'.(selectedIcon := DefaultIcon), NoRequest)
    case DialogCancel => (s.(isCreating := false, selectedIcon := DefaultIcon), NoRequest)
    case Submit(data) =>
      if PanelSubmitEnabled(s) then
        var req := Dispatch(s, data);
        (Issue(s, req), req)
      else (s, NoRequest)
    case DialogSubmit(data) =>
      if DialogSubmitEnabled(s) then
        var req := Dispatch(s, data);
        (Issue(s, req), req)
      else (s, NoRequest)
    case DialogEnter(data) =>
      if s.isCreating then
        var req := Dispatch(s, data);
        (Issue(s, req), req)
      else (s, NoRequest)
    case Delete(id) => (s, DeleteFeature(id))
    case UpdateSettled(ok) =>
      (s.(updatePending := false, selected := if ok then None else s.selected), NoRequest)
    case CreateSettled(ok) =>
      var s' := s.(createPending := false);
      (if ok then s'.(isCreating := false, selectedIcon := DefaultIcon, kept := None) else s', NoRequest)
    case DeleteSettled(ok) =>
      (if ok then s.(selected := None) else s, NoRequest)
  }

  /** The editor starts on the default icon, and picking a choice selects its name. */
  lemma IconChoice(s: State, i: Icon)
    ensures Initial.selectedIcon == "Users" && IsIconName(Initial.selectedIcon)
    ensures Step(s, PickIcon(i)).0.selectedIcon == Name(i)
    ensures IconNamed(Step(s, PickIcon(i)).0.selectedIcon) == Some(i)
  {
    IconNamesRoundTrip();
  }

  /** Selecting a feature edits it: its icon becomes the chosen one and create mode is left. */
  lemma SelectLoads(s: State, f: Feature)
    ensures var (s', req) := Step(s, Select(f));
      && req == NoRequest && s'.selected == Some(f) && s'.selectedIcon == f.fields.icon && !s'.isCreating
  {
  }

  /** Either cancel button, and a successful create, return the icon to the default. */
  lemma CancelResetsIcon(s: State)
    ensures var s' := Step(s, Cancel).0;
      && s'.selectedIcon == DefaultIcon && !s'.isCreating
      && (s.isCreating ==> s'.selected == s.selected)
      && (!s.isCreating ==> s'.selected.None?)
    ensures var s' := Step(s, DialogCancel).0; s'.selectedIcon == DefaultIcon && !s'.isCreating
    ensures var s' := Step(s, CreateSettled(true)).0; s'.selectedIcon == DefaultIcon && !s'.isCreating
  {
  }

  /** The form holds the selected feature whenever it holds a row and a
      feature is selected. */
  predicate Coherent(s: State) {
    s.kept.Some? && s.selected.Some? ==> s.kept == s.selected
  }

  /** Every step keeps the form coherent with the selection, so an update
      writes back the position the selected feature had when it was loaded. */
  lemma StepKeepsCoherent(s: State, e: Event)
    requires Coherent(s)
    ensures Coherent(Initial)
    ensures Coherent(Step(s, e).0)
    ensures var req := Step(s, e).1;
      req.UpdateFeature? && s.kept.Some? ==> req.patch.position == Some(s.selected.value.position)
  {
  }

  /** A feature once selected stays in the form, so a create opened later,
      even after a cancel, carries that feature's id into the insert. */
  lemma CreateAfterSelectCarriesId(s: State, f: Feature, data: Draft)
    requires !s.createPending
    ensures var s1 := Step(Step(s, Select(f)).0, OpenCreate).0;
      Step(s1, DialogSubmit(data)).1 == CreateFeature(FeatureFields(data.title, data.description, f.fields.icon), Some(f.id))
    ensures var s1 := Step(Step(Step(s, Select(f)).0, Cancel).0, OpenCreate).0;
      Step(s1, DialogSubmit(data)).1 == CreateFeature(FeatureFields(data.title, data.description, DefaultIcon), Some(f.id))
  {
  }

  /** Deleting the selected feature does not reset the form, so a create
      opened next sends the deleted feature's id, which the delete has taken
      out of the table: the insert finds the id free. */
  lemma CreateAfterDeleteReusesId(s: State, f: Feature, data: Draft, t: OrderedTable.Table<FeatureFields>)
    requires !s.createPending
    ensures Step(s, Delete(f.id)).1 == DeleteFeature(f.id)
    ensures OrderedTable.Delete(t, f.id, true).Ok? && f.id !in OrderedTable.Delete(t, f.id, true).value
    ensures var s1 := Step(Step(Step(Step(s, Select(f)).0, Delete(f.id)).0, DeleteSettled(true)).0, OpenCreate).0;
      Step(s1, DialogSubmit(data)).1.CreateFeature? && Step(s1, DialogSubmit(data)).1.keptId == Some(f.id)
  {
  }

  /** A successful create resets the form and the icon but keeps the
      selection, so saving the panel next overwrites the selected feature with
      what the form now holds, the icon "Users" and no position. */
  lemma UpdateAfterCreateBlanksSelected(s: State, f: Feature, created: Draft, data: Draft)
    requires !s.updatePending && !s.createPending
    ensures var s1 := Step(Step(Step(s, Select(f)).0, OpenCreate).0, DialogSubmit(created)).0;
      var s2 := Step(s1, CreateSettled(true)).0;
      && s2.selected == Some(f) && s2.kept.None? && !s2.isCreating
      && Step(s2, Submit(data)).1 == UpdateFeature(FeaturePatch(f.id, None, Some(data.title),
           Some(data.description), Some(DefaultIcon)))
  {
  }

  /** Enter in the create dialog's title field submits its form directly: the
      disabled create button does not stop it, so a second create goes out
      while the first is pending, where the button sends nothing. */
  lemma EnterCreatesWhilePending(s: State, data: Draft)
    requires s.isCreating && s.createPending
    ensures Step(s, DialogSubmit(data)) == (s, NoRequest)
    ensures Step(s, DialogEnter(data)).1 == CreateFeature(FeatureFields(data.title, data.description, s.selectedIcon), KeptId(s))
  {
  }

  /** A successful update or delete clears the selection unconditionally. */
  lemma SettledClearsSelection(s: State)
    ensures Step(s, UpdateSettled(true)).0.selected.None?
    ensures Step(s, DeleteSettled(true)).0.selected.None?
  {
  }
}

=== FILE: ordered_table.dfy ===
/** The `products` and `features` tables and the service operations on them.
    Both tables carry an integer `position` that fixes display order; the
    service code for the two is the same up to the table name, so one generic
    table over the row payload `D` models both. */
module OrderedTable {
  import opened Outcome
  import opened Content

  /** A table: every row filed under its own id. */
  type Table<D> = t: map<Id, Row<D>> | forall k | k in t :: t[k].id == k witness map[]

  predicate Distinct<T(==)>(s: seq<T>) {
    forall i, j | 0 <= i < j < |s| :: s[i] != s[j]
  }

  predicate SortedByPosition<D>(rows: seq<Row<D>>) {
    forall i, j | 0 <= i < j < |rows| :: rows[i].position <= rows[j].position
  }

  /** `rows` holds, each exactly once, the rows of `t` whose ids are in `done`. */
  ghost predicate ListsOn<D>(t: Table<D>, done: set<Id>, rows: seq<Row<D>>) {
    && (forall i | 0 <= i < |rows| :: rows[i].id in done && rows[i].id in t && t[rows[i].id] == rows[i])
    && (forall i, j | 0 <= i < j < |rows| :: rows[i].id != rows[j].id)
    && (forall k | k in done :: exists i | 0 <= i < |rows| :: rows[i].id == k)
  }

  /** `rows` holds every row of `t` exactly once. */
  ghost predicate Lists<D>(t: Table<D>, rows: seq<Row<D>>) {
    ListsOn(t, t.Keys, rows)
  }

  /** Positions are exactly 1..N, one per row. */
  ghost predicate Dense<D>(t: Table<D>) {
    && (forall k | k in t :: 1 <= t[k].position <= |t|)
    && (forall k, l | k in t && l in t && k != l :: t[k].position != t[l].position)
  }

  // ---------------------------------------------------------------------------
  // fetchProducts / fetchFeatures

  /** Where a row goes in a list sorted by position: after every row whose
      position is not larger, before the first larger one. */
  function InsertionIndex<D>(rows: seq<Row<D>>, x: Row<D>): (p: nat)
    ensures p <= |rows|
    ensures forall i | 0 <= i < p :: rows[i].position <= x.position
    ensures p < |rows| ==> x.position < rows[p].position
  {
    if |rows| == 0 || x.position < rows[0].position then 0 else 1 + InsertionIndex(rows[1..], x)
  }

  lemma InsertKeepsSorted<D>(rows: seq<Row<D>>, x: Row<D>, p: nat)
    requires SortedByPosition(rows)
    requires p == InsertionIndex(rows, x)
    ensures SortedByPosition(rows[..p] + [x] + rows[p..])
  {
    var r := rows[..p] + [x] + rows[p..];
    forall a, b | 0 <= a < b < |r|
      ensures r[a].position <= r[b].position
    {
      if b < p {
        assert r[a] == rows[a] && r[b] == rows[b];
      } else if b == p {
        assert r[a] == rows[a] && r[b] == x;
      } else if a < p {
        assert r[a] == rows[a] && r[b] == rows[b - 1];
      } else if a == p {
        assert r[a] == x && r[b] == rows[b - 1];
        assert rows[p].position <= rows[b - 1].position;
      } else {
        assert r[a] == rows[a - 1] && r[b] == rows[b - 1];
      }
    }
  }

  lemma InsertKeepsListing<D>(t: Table<D>, done: set<Id>, rows: seq<Row<D>>, k: Id, p: nat)
    requires ListsOn(t, done, rows)
    requires k in t && k !in done && p <= |rows|
    ensures ListsOn(t, done + {k}, rows[..p] + [t[k]] + rows[p..])
  {
    var r := rows[..p] + [t[k]] + rows[p..];
    assert |r| == |rows| + 1;
    assert forall i | 0 <= i < p :: r[i] == rows[i];
    assert r[p] == t[k];
    assert forall i | p < i < |r| :: r[i] == rows[i - 1];
    forall a, b | 0 <= a < b < |r|
      ensures r[a].id != r[b].id
    {
      if a == p || b == p {
      } else {
        var a' := if a < p then a else a - 1;
        var b' := if b < p then b else b - 1;
        assert r[a] == rows[a'] && r[b] == rows[b'] && a' < b';
      }
    }
    forall j | j in done + {k}
      ensures exists i | 0 <= i < |r| :: r[i].id == j
    {
      if j == k {
        assert r[p].id == j;
      } else {
        var i :| 0 <= i < |rows| && rows[i].id == j;
        if i < p {
          assert r[i].id == j;
        } else {
          assert r[i + 1].id == j;
        }
      }
    }
  }

  /** A fetch ordered by position: an error is thrown, a null answer reads as the
      empty list, and otherwise every row of the table comes back once, sorted
      ascending by position (ties in no particular order). */
  method Fetch<D>(t: Table<D>, reply: Reply) returns (r: Result<seq<Row<D>>>)
    ensures r.Err? <==> reply == Error
    ensures reply == NullData ==> r == Ok([])
    ensures reply == Data ==> r.Ok? && SortedByPosition(r.value) && Lists(t, r.value)
  {
    if reply == Error {
      return Err(Rejected);
    }
    if reply == NullData {
      return Ok([]);
    }
    var rows: seq<Row<D>> := [];
    var rest := t.Keys;
    while rest != {}
      invariant rest <= t.Keys
      invariant SortedByPosition(rows)
      invariant ListsOn(t, t.Keys - rest, rows)
      decreases rest
    {
      var k :| k in rest;
      var p := InsertionIndex(rows, t[k]);
      InsertKeepsSorted(rows, t[k], p);
      InsertKeepsListing(t, t.Keys - rest, rows, k, p);
      rows := rows[..p] + [t[k]] + rows[p..];
      assert t.Keys - (rest - {k}) == (t.Keys - rest) + {k};
      rest := rest - {k};
    }
    assert t.Keys - rest == t.Keys;
    return Ok(rows);
  }

  // ---------------------------------------------------------------------------
  // createProduct / createFeature

  /** The `maxPosition` the create functions compute from the query
      "position, descending, limit 1": the largest position when the query
      answers and the table has rows, and 0 otherwise (the query's error is
      never looked at). */
  method MaxPosition<D>(t: Table<D>, answered: bool) returns (m: int)
    ensures !answered || |t| == 0 ==> m == 0
    ensures answered && |t| > 0 ==> (forall k | k in t :: t[k].position <= m) && exists k | k in t :: t[k].position == m
  {
    if !answered || |t| == 0 {
      return 0;
    }
    assert t.Keys != {};
    var first :| first in t;
    m := t[first].position;
    var rest := t.Keys - {first};
    while rest != {}
      invariant rest <= t.Keys
      invariant forall k | k in t && k !in rest :: t[k].position <= m
      invariant exists k | k in t :: t[k].position == m
      decreases rest
    {
      var k :| k in rest;
      if t[k].position > m {
        m := t[k].position;
      }
      rest := rest - {k};
    }
  }

  /** Insert a row one past the current maximum position. The database supplies
      the fresh id `newId`; an insert whose id is taken, or that the database
      refuses, throws and leaves the table as it was. */
  method Create<D>(t: Table<D>, fields: D, newId: Id, maxAnswered: bool, insertAccepted: bool)
    returns (r: Result<(Table<D>, Row<D>)>)
    ensures r.Ok? <==> insertAccepted && newId !in t
    ensures r.Ok? ==> var (t', row) := r.value;
      && row.id == newId && row.fields == fields
      && t' == t[newId := row]
    ensures r.Ok? && maxAnswered && |t| > 0 ==>
      && (forall k | k in t :: t[k].position < r.value.1.position)
      && (exists k | k in t :: t[k].position + 1 == r.value.1.position)
    ensures r.Ok? && (!maxAnswered || |t| == 0) ==> r.value.1.position == 1
  {
    var maxPosition := MaxPosition(t, maxAnswered);
    if !insertAccepted || newId in t {
      return Err(Rejected);
    }
    var row := Row(newId, maxPosition + 1, fields);
    return Ok((t[newId := row], row));
  }

  /** The set of positions in use. */
  ghost function Positions<D>(t: Table<D>): set<int> {
    set k | k in t :: t[k].position
  }

  lemma {:induction false} RangeCardinality(s: set<int>, lo: int, hi: int)
    requires lo <= hi && forall x | x in s :: lo <= x < hi
    ensures |s| <= hi - lo
    decreases hi - lo
  {
    if lo < hi {
      RangeCardinality(s - {hi - 1}, lo, hi - 1);
    } else {
      assert forall x :: x !in s;
      assert s == {};
    }
  }

  lemma {:induction false} PositionsCardinality<D>(t: Table<D>)
    requires forall k, l | k in t && l in t && k != l :: t[k].position != t[l].position
    ensures |Positions(t)| == |t|
    decreases |t|
  {
    if |t| > 0 {
      assert t.Keys != {};
      var k :| k in t;
      var t': Table<D> := t - {k};
      PositionsCardinality(t');
      assert Positions(t) == Positions(t') + {t[k].position};
      assert t[k].position !in Positions(t');
    }
  }

  /** A dense non-empty table uses both ends of 1..N. */
  lemma DenseEnds<D>(t: Table<D>)
    requires Dense(t) && |t| > 0
    ensures exists k | k in t :: t[k].position == |t|
    ensures exists k | k in t :: t[k].position == 1
  {
    PositionsCardinality(t);
    if forall k | k in t :: t[k].position != |t| {
      RangeCardinality(Positions(t), 1, |t|);
    }
    if forall k | k in t :: t[k].position != 1 {
      RangeCardinality(Positions(t), 2, |t| + 1);
    }
  }

  /** A row created one past the maximum of a dense table lands at N + 1: the
      table stays dense. */
  lemma CreateKeepsDense<D>(t: Table<D>, row: Row<D>)
    requires Dense(t) && row.id !in t
    requires forall k | k in t :: t[k].position < row.position
    requires |t| > 0 ==> exists k | k in t :: t[k].position + 1 == row.position
    requires |t| == 0 ==> row.position == 1
    ensures row.position == |t| + 1
    ensures Dense(t[row.id := row])
  {
    if |t| > 0 {
      DenseEnds(t);
    }
    var t' := t[row.id := row];
    assert |t'| == |t| + 1;
  }

  /** When the maximum query fails on a dense non-empty table, the new row
      lands at 1 beside an existing row at 1: the table is no longer dense. */
  lemma FailedMaxQueryBreaksDense<D>(t: Table<D>, row: Row<D>)
    requires Dense(t) && |t| > 0 && row.id !in t && row.position == 1
    ensures !Dense(t[row.id := row])
  {
    DenseEnds(t);
    var k :| k in t && t[k].position == 1;
    var t' := t[row.id := row];
    assert k in t' && row.id in t' && k != row.id;
    assert t'[k].position == t'[row.id].position;
  }

  /** A row placed above every existing position is the last row of any
      position-sorted listing that follows. */
  lemma CreatedRowListedLast<D>(t: Table<D>, row: Row<D>, rows: seq<Row<D>>)
    requires row.id !in t && forall k | k in t :: t[k].position < row.position
    requires SortedByPosition(rows) && Lists(t[row.id := row], rows)
    ensures |rows| > 0 && rows[|rows| - 1] == row
  {
    var t' := t[row.id := row];
    assert row.id in t';
    var i :| 0 <= i < |rows| && rows[i].id == row.id;
    assert rows[i] == row;
    var n := |rows| - 1;
    assert rows[i].position <= rows[n].position;
    assert rows[n].id == row.id;
  }

  // ---------------------------------------------------------------------------
  // deleteProduct / deleteFeature

  /** Delete the rows whose id is `id`. No row matching is no error; nothing
      else in the table moves, so positions may be left with a gap. */
  function Delete<D>(t: Table<D>, id: Id, ok: bool): (r: Result<Table<D>>)
    ensures r.Ok? <==> ok
    ensures r.Ok? ==> r.value.Keys == t.Keys - {id} && forall k | k in r.value :: r.value[k] == t[k]
  {
    if ok then Ok(t - {id}) else Err(Rejected)
  }

  /** A fetch after a delete is the earlier fetch with the deleted row taken out:
      the remaining rows keep their relative order. */
  lemma DeleteKeepsListingOrder<D>(t: Table<D>, rows: seq<Row<D>>, i: nat)
    requires SortedByPosition(rows) && Lists(t, rows) && i < |rows|
    ensures Delete(t, rows[i].id, true).Ok?
    ensures var t' := Delete(t, rows[i].id, true).value;
      SortedByPosition(rows[..i] + rows[i + 1..]) && Lists(t', rows[..i] + rows[i + 1..])
  {
    DropKeepsSorted(rows, i);
    DropKeepsListing(t, rows, i);
  }

  /** Dropping one element from a sorted listing leaves it sorted. */
  lemma DropKeepsSorted<D>(rows: seq<Row<D>>, i: nat)
    requires SortedByPosition(rows) && i < |rows|
    ensures SortedByPosition(rows[..i] + rows[i + 1..])
  {
    var r := rows[..i] + rows[i + 1..];
    forall a, b | 0 <= a < b < |r|
      ensures r[a].position <= r[b].position
    {
      var a' := if a < i then a else a + 1;
      var b' := if b < i then b else b + 1;
      assert r[a] == rows[a'] && r[b] == rows[b'];
    }
  }

  /** Dropping the row of `rows[i]` from the table and from its listing keeps
      the one a listing of the other. */
  lemma DropKeepsListing<D>(t: Table<D>, rows: seq<Row<D>>, i: nat)
    requires Lists(t, rows) && i < |rows|
    ensures Lists(t - {rows[i].id}, rows[..i] + rows[i + 1..])
  {
    var t' := t - {rows[i].id};
    var r := rows[..i] + rows[i + 1..];
    assert forall j | 0 <= j < i :: r[j] == rows[j];
    assert forall j | i <= j < |r| :: r[j] == rows[j + 1];
    forall k | k in t'.Keys
      ensures exists j | 0 <= j < |r| :: r[j].id == k
    {
      var j :| 0 <= j < |rows| && rows[j].id == k;
      if j < i {
        assert r[j].id == k;
      } else {
        assert j != i;
        assert r[j - 1].id == k;
      }
    }
  }

  // ---------------------------------------------------------------------------
  // reorderProducts / reorderFeatures

  /** The index of the last occurrence of `x` in `s`. */
  function LastIndex<T(==)>(s: seq<T>, x: T): (i: nat)
    requires x in s
    ensures i < |s| && s[i] == x
    ensures forall j | i < j < |s| :: s[j] != x
  {
    if s[|s| - 1] == x then |s| - 1 else LastIndex(s[..|s| - 1], x)
  }

  /** One `update({ position }).eq('id', id)`; an unknown id matches no row. */
  function SetPosition<D>(t: Table<D>, id: Id, position: int): Table<D> {
    if id in t then t[id := t[id].(position := position)] else t
  }

  /** `store` is `t` after `position = i + 1` was written for every `ids[i]` in
      turn: a listed id holds one past its last index, every other row is as it was. */
  ghost predicate Reordered<D>(t: Table<D>, ids: seq<Id>, store: Table<D>) {
    && store.Keys == t.Keys
    && forall k | k in t :: store[k] == (if k in ids then t[k].(position := LastIndex(ids, k) + 1) else t[k])
  }

  /** `ids` names every row of `t` exactly once. */
  ghost predicate Permutes<D>(ids: seq<Id>, t: Table<D>) {
    && Distinct(ids)
    && (forall k | k in ids :: k in t)
    && (forall k | k in t :: k in ids)
  }

  lemma LastIndexSnoc<T>(s: seq<T>, y: T, x: T)
    requires x in s + [y]
    ensures LastIndex(s + [y], x) == if x == y then |s| else LastIndex(s, x)
  {
    assert (s + [y])[..|s|] == s;
  }

  /** The reorder loop: write `position = i + 1` for `orderedIds[i]`, one row at
      a time. The first refused write is thrown: the writes before it stay, no
      later write is made, nothing is rolled back. `accepted(i)` is the
      database's answer to the i-th write. */
  method Reorder<D>(t: Table<D>, orderedIds: seq<Id>, accepted: nat -> bool)
    returns (store: Table<D>, failedAt: Option<nat>)
    ensures failedAt.None? ==> (forall i | 0 <= i < |orderedIds| :: accepted(i)) && Reordered(t, orderedIds, store)
    ensures failedAt.Some? ==> var k := failedAt.value;
      && k < |orderedIds| && !accepted(k)
      && (forall i | 0 <= i < k :: accepted(i))
      && Reordered(t, orderedIds[..k], store)
  {
    store := t;
    var i := 0;
    while i < |orderedIds|
      invariant 0 <= i <= |orderedIds|
      invariant forall j | 0 <= j < i :: accepted(j)
      invariant Reordered(t, orderedIds[..i], store)
    {
      if !accepted(i) {
        return store, Some(i);
      }
      var id := orderedIds[i];
      assert orderedIds[..i + 1] == orderedIds[..i] + [id];
      forall k | k in orderedIds[..i + 1]
        ensures LastIndex(orderedIds[..i + 1], k) == if k == id then i else LastIndex(orderedIds[..i], k)
      {
        LastIndexSnoc(orderedIds[..i], id, k);
      }
      store := SetPosition(store, id, i + 1);
      i := i + 1;
    }
    assert orderedIds[..|orderedIds|] == orderedIds;
    return store, None;
  }

  /** With distinct ids, the i-th listed id that names a row holds position i + 1. */
  lemma ReorderedPositions<D>(t: Table<D>, ids: seq<Id>, store: Table<D>)
    requires Reordered(t, ids, store) && Distinct(ids)
    ensures forall i | 0 <= i < |ids| && ids[i] in t :: store[ids[i]].position == i + 1
  {
  }

  /** A reorder stopped at index k: the rows named before k hold 1..k, the rows
      named from k on are untouched. */
  lemma ReorderStoppedAt<D>(t: Table<D>, ids: seq<Id>, k: nat, store: Table<D>)
    requires k <= |ids| && Distinct(ids) && Reordered(t, ids[..k], store)
    ensures forall i | 0 <= i < k && ids[i] in t :: store[ids[i]].position == i + 1
    ensures forall i | k <= i < |ids| && ids[i] in t :: store[ids[i]] == t[ids[i]]
  {
    forall i | 0 <= i < k && ids[i] in t
      ensures store[ids[i]].position == i + 1
    {
      assert ids[..k][i] == ids[i];
    }
    forall i | k <= i < |ids| && ids[i] in t
      ensures store[ids[i]] == t[ids[i]]
    {
      assert ids[i] !in ids[..k];
    }
  }

  lemma {:induction false} DistinctCardinality<T>(s: seq<T>)
    requires Distinct(s)
    ensures |set x | x in s| == |s|
  {
    if |s| > 0 {
      var init := s[..|s| - 1];
      DistinctCardinality(init);
      assert (set x | x in s) == (set x | x in init) + {s[|s| - 1]};
    }
  }

  lemma PermutationSize<D>(ids: seq<Id>, t: Table<D>)
    requires Permutes(ids, t)
    ensures |ids| == |t|
  {
    DistinctCardinality(ids);
    assert (set x | x in ids) == t.Keys;
  }

  /** A complete reorder whose ids name every row once leaves positions 1..N. */
  lemma ReorderIsDense<D>(t: Table<D>, ids: seq<Id>, store: Table<D>)
    requires Reordered(t, ids, store) && Permutes(ids, t)
    ensures Dense(store)
  {
    DistinctCardinality(ids);
    assert (set x | x in ids) == t.Keys;
    assert |t.Keys| == |ids|;
    forall k | k in store
      ensures 1 <= store[k].position <= |store|
    {
      var i := LastIndex(ids, k);
    }
    forall k, l | k in store && l in store && k != l
      ensures store[k].position != store[l].position
    {
      assert ids[LastIndex(ids, k)] == k && ids[LastIndex(ids, l)] == l;
    }
  }

  lemma {:induction false} IncreasingSpread(s: seq<int>, i: nat, j: nat)
    requires forall a, b | 0 <= a < b < |s| :: s[a] < s[b]
    requires i <= j < |s|
    ensures s[j] - s[i] >= j - i
    decreases j - i
  {
    if i < j {
      IncreasingSpread(s, i, j - 1);
    }
  }

  /** N strictly increasing values in 1..N are 1, 2, ..., N. */
  lemma IncreasingFill(s: seq<int>)
    requires forall a, b | 0 <= a < b < |s| :: s[a] < s[b]
    requires forall a | 0 <= a < |s| :: 1 <= s[a] <= |s|
    ensures forall a | 0 <= a < |s| :: s[a] == a + 1
  {
    forall a | 0 <= a < |s|
      ensures s[a] == a + 1
    {
      IncreasingSpread(s, 0, a);
      IncreasingSpread(s, a, |s| - 1);
    }
  }

  /** A listing has as many rows as the table. */
  lemma ListingSize<D>(t: Table<D>, rows: seq<Row<D>>)
    requires Lists(t, rows)
    ensures |rows| == |t|
  {
    var rowIds := seq(|rows|, i requires 0 <= i < |rows| => rows[i].id);
    assert Distinct(rowIds);
    DistinctCardinality(rowIds);
    forall k | k in t.Keys
      ensures k in rowIds
    {
      var i :| 0 <= i < |rows| && rows[i].id == k;
      assert rowIds[i] == k;
    }
    assert (set x | x in rowIds) == t.Keys;
  }

  /** In a listing of a reordered table, each row sits at one past the index of its id. */
  lemma ListedPositions<D>(t: Table<D>, ids: seq<Id>, store: Table<D>, rows: seq<Row<D>>)
    requires Reordered(t, ids, store) && Permutes(ids, t) && Lists(store, rows)
    ensures forall i | 0 <= i < |rows| :: rows[i].id in ids && rows[i].position == LastIndex(ids, rows[i].id) + 1
  {
    forall i | 0 <= i < |rows|
      ensures rows[i].id in ids && rows[i].position == LastIndex(ids, rows[i].id) + 1
    {
      assert store[rows[i].id] == rows[i];
    }
  }

  /** Rows with distinct ids, each at one past the index of its id in `ids`,
      listed in non-decreasing position: their ids come in the order of `ids`. */
  lemma IndexedOrder(rowIds: seq<Id>, ids: seq<Id>, positions: seq<int>)
    requires |rowIds| == |ids| == |positions| && Distinct(rowIds)
    requires forall i | 0 <= i < |rowIds| :: rowIds[i] in ids && positions[i] == LastIndex(ids, rowIds[i]) + 1
    requires forall a, b | 0 <= a < b < |positions| :: positions[a] <= positions[b]
    ensures rowIds == ids
  {
    forall a, b | 0 <= a < b < |positions|
      ensures positions[a] < positions[b]
    {
      assert ids[LastIndex(ids, rowIds[a])] == rowIds[a];
      assert ids[LastIndex(ids, rowIds[b])] == rowIds[b];
    }
    IncreasingFill(positions);
    forall i | 0 <= i < |rowIds|
      ensures rowIds[i] == ids[i]
    {
      assert LastIndex(ids, rowIds[i]) == i;
    }
  }

  function IdsOf<D>(rows: seq<Row<D>>): (r: seq<Id>)
    ensures |r| == |rows| && forall i | 0 <= i < |rows| :: r[i] == rows[i].id
  {
    seq(|rows|, i requires 0 <= i < |rows| => rows[i].id)
  }

  function PositionsOf<D>(rows: seq<Row<D>>): (r: seq<int>)
    ensures |r| == |rows| && forall i | 0 <= i < |rows| :: r[i] == rows[i].position
  {
    seq(|rows|, i requires 0 <= i < |rows| => rows[i].position)
  }

  /** The facts about a listing of a reordered table that `IndexedOrder` needs. */
  lemma ListedReorder<D>(t: Table<D>, ids: seq<Id>, store: Table<D>, rows: seq<Row<D>>)
    requires Reordered(t, ids, store) && Permutes(ids, t)
    requires SortedByPosition(rows) && Lists(store, rows)
    ensures |IdsOf(rows)| == |ids| == |PositionsOf(rows)| && Distinct(IdsOf(rows))
    ensures forall i | 0 <= i < |rows| :: IdsOf(rows)[i] in ids && PositionsOf(rows)[i] == LastIndex(ids, IdsOf(rows)[i]) + 1
    ensures forall a, b | 0 <= a < b < |rows| :: PositionsOf(rows)[a] <= PositionsOf(rows)[b]
  {
    ListingSize(store, rows);
    PermutationSize(ids, t);
    assert store.Keys == t.Keys;
    ListedPositions(t, ids, store, rows);
  }

  /** After a complete reorder whose ids name every row once, a fetch ordered by
      position returns the rows in exactly the order of `ids`: the listed ids,
      read off in order, are `ids` itself. */
  lemma FetchAfterReorder<D>(t: Table<D>, ids: seq<Id>, store: Table<D>, rows: seq<Row<D>>)
    requires Reordered(t, ids, store) && Permutes(ids, t)
    requires SortedByPosition(rows) && Lists(store, rows)
    ensures IdsOf(rows) == ids
  {
    ListedReorder(t, ids, store, rows);
    IndexedOrder(IdsOf(rows), ids, PositionsOf(rows));
  }
}

=== FILE: outcome.dfy ===
/** Values that stand for the answers of the hosted database client. */
module Outcome {

  /** `null`/`undefined` or a value. */
  datatype Option<+T> = None | Some(value: T) {

    /** The value, or `default` when absent (the `x || default` idiom). */
    function GetOr(default: T): T {
      match this
      case Some(v) => v
      case None => default
    }
  }

  /** Why a database call raised an error. */
  datatype StoreError =
    | Rejected     // the client returned an error object (transport failure, constraint violation)
    | NoSingleRow  // a `.single()` request matched no row

  /** The value a service function resolves to, or the error it throws. */
  datatype Result<+T> = Ok(value: T) | Err(error: StoreError)

  /** The shape of a `select` answer: rows, neither rows nor error, or an error. */
  datatype Reply = Data | NullData | Error
}

=== FILE: product_editor.dfy ===
/** The admin panel's product editor as a state machine: a selection, a create
    mode, a local feature-list buffer, the row the form was last reset with,
    and the pending flags of the update and create mutations. Each user action or settled mutation is an `Event`;
    `Step` returns the next state and the service call the action issues. */
module ProductEditor {
  import opened Outcome
  import opened Content
  import OrderedTable
  import Text

  /** What the title, description and image inputs hold at submit. */
  datatype Draft = Draft(title: string, description: string, imageUrl: Option<string>)

  datatype State = State(
    selected: Option<Product>,
    isCreating: bool,
    features: seq<string>,  // the feature list shown in the form
    newFeature: string,     // the text of the "add feature" input
    kept: Option<Product>,  // the row the form was last reset with; its id and position ride along in every submit
    updatePending: bool,
    createPending: bool)

  const Initial := State(None, false, [], "", None, false, false)

  /** The service call an event issues, if any. */
  datatype Request =
    | NoRequest
    | CreateProduct(fields: ProductFields, keptId: Option<Id>)  // the id the form kept, if any
    | UpdateProduct(patch: ProductPatch)
    | DeleteProduct(id: Id)

  datatype Event =
    | Select(product: Product)   // a product in the list is clicked
    | OpenCreate                 // the "new product" trigger opens the dialog
    | DismissCreate              // the dialog is closed by escape or the overlay
    | TypeFeature(text: string)
    | AddFeature                 // the add button, or Enter in the feature input
    | RemoveFeature(index: int)
    | Cancel                     // the cancel button of the edit panel
    | DialogCancel               // the cancel button of the create dialog
    | Submit(data: Draft)        // the submit button of the edit panel
    | DialogSubmit(data: Draft)  // the create button of the dialog
    | Delete(id: Id)             // a confirmed delete in the list
    | UpdateSettled(ok: bool)
    | CreateSettled(ok: bool)
    | DeleteSettled(ok: bool)

  /** `addFeature`: a blank input changes nothing; otherwise the trimmed input
      is appended to the end of the list and the input is cleared. */
  function AddTrimmed(features: seq<string>, input: string): (r: (seq<string>, string))
    ensures Text.AllWhitespace(input) ==> r == (features, input)
    ensures !Text.AllWhitespace(input) ==>
      && r.1 == ""
      && |r.0| == |features| + 1 && r.0[..|features|] == features
      && r.0[|features|] == Text.Trim(input) && r.0[|features|] != ""
  {
    var t := Text.Trim(input);
    if t != "" then (features + [t], "") else (features, input)
  }

  /** `removeFeature`: `filter((_, i) => i !== index)`. An index inside the list
      drops exactly that element, keeping the others in order; any other index
      changes nothing. */
  function RemoveAt<T>(s: seq<T>, index: int): (r: seq<T>)
    ensures 0 <= index < |s| ==> r == s[..index] + s[index + 1..]
    ensures !(0 <= index < |s|) ==> r == s
  {
    if |s| == 0 then []
    else
      var rest := RemoveAt(s[1..], index - 1);
      if index == 0 then rest else [s[0]] + rest
  }

  /** The id and the position the form holds beside its inputs: those of the
      row it was last reset with, or none. */
  function KeptId(s: State): Option<Id> {
    if s.kept.Some? then Some(s.kept.value.id) else None
  }

  function KeptPosition(s: State): Option<int> {
    if s.kept.Some? then Some(s.kept.value.position) else None
  }

  /** `onSubmit`: the whole form value is spread into the payload and the local
      list overrides its features; create in create mode, otherwise update the
      selected product by its id, otherwise nothing. The create's position is
      overwritten by the service, the update's is written as kept. */
  function Dispatch(s: State, data: Draft): Request {
    if s.isCreating then
      CreateProduct(ProductFields(data.title, data.description, data.imageUrl, Some(s.features)), KeptId(s))
    else if s.selected.Some? then
      UpdateProduct(ProductPatch(s.selected.value.id, KeptPosition(s), Some(data.title), Some(data.description),
                                 Some(data.imageUrl), Some(s.features)))
    else
      NoRequest
  }

  /** Issue `req` and mark its mutation pending. */
  function Issue(s: State, req: Request): State {
    match req
    case CreateProduct(_, _) => s.(createPending := true)
    case UpdateProduct(_) => s.(updatePending := true)
    case _ => s
  }

  /** The panel's submit button is disabled while an update or a create is
      pending; the dialog's create button only while a create is pending. */
  predicate PanelSubmitEnabled(s: State) {
    !s.updatePending && !s.createPending
  }

  predicate DialogSubmitEnabled(s: State) {
    s.isCreating && !s.createPending
  }

  function Step(s: State, e: Event): (r: (State, Request))
    // only a submit or a delete calls the service
    ensures !(e.Submit? || e.DialogSubmit? || e.Delete?) ==> r.1 == NoRequest
    // a create goes out only from create mode, never while one is pending, and sends the local list
    ensures r.1.CreateProduct? ==>
      && s.isCreating && !s.createPending && r.0.createPending
      && r.1.fields.features == Some(s.features)
    // an update goes out only for the selected product, never while a create or update is pending
    ensures r.1.UpdateProduct? ==>
      && !s.isCreating && s.selected.Some? && !s.updatePending && !s.createPending && r.0.updatePending
      && r.1.patch.id == s.selected.value.id && r.1.patch.features == Some(s.features)
    // and, conversely, an enabled submit does send: the draft as a create in create mode
    ensures (e.Submit? && PanelSubmitEnabled(s)) || (e.DialogSubmit? && DialogSubmitEnabled(s)) ==>
      s.isCreating ==> r.1 == CreateProduct(ProductFields(e.data.title, e.data.description, e.data.imageUrl,
                                                          Some(s.features)), KeptId(s))
    // or as an update of every input of the selected product, with the position the form kept
    ensures e.Submit? && PanelSubmitEnabled(s) && !s.isCreating && s.selected.Some? ==>
      r.1 == UpdateProduct(ProductPatch(s.selected.value.id, KeptPosition(s), Some(e.data.title),
                                        Some(e.data.description), Some(e.data.imageUrl), Some(s.features)))
    ensures e.Submit? && !s.isCreating && s.selected.None? ==> r.1 == NoRequest
    // a confirmed delete always goes out, for the row it names
    ensures e.Delete? <==> r.1.DeleteProduct?
    ensures e.Delete? ==> r.1 == DeleteProduct(e.id)
    // only a select or a successful create resets the form to other values
    ensures !(e.Select? || e == CreateSettled(true)) ==> r.0.kept == s.kept
    // a disabled control does nothing
    ensures e.Submit? && !PanelSubmitEnabled(s) ==> r == (s, NoRequest)
    ensures e.DialogSubmit? && !DialogSubmitEnabled(s) ==> r == (s, NoRequest)
  {
    match e
    case Select(p) =>
      (s.(selected := Some(p), kept := Some(p), features := p.fields.features.GetOr([]), isCreating := false), NoRequest)
    case OpenCreate => (s.(isCreating := true), NoRequest)
    case DismissCreate => (s.(isCreating := false), NoRequest)
    case TypeFeature(text) => (s.(newFeature := text), NoRequest)
    case AddFeature =>
      var (fs, input) := AddTrimmed(s.features, s.newFeature);
      (s.(features := fs, newFeature := input), NoRequest)
    case RemoveFeature(i) => (s.(features := RemoveAt(s.features, i)), NoRequest)
    case Cancel =>
      var s' := if s.isCreating then s.(isCreating := false) else s.(selected := None);
      (s'.(features := []), NoRequest)
    case DialogCancel => (s.(isCreating := false, features := []), NoRequest)
    case Submit(data) =>
      if PanelSubmitEnabled(s) then
        var req := Dispatch(s, data);
        (Issue(s, req), req)
      else (s, NoRequest)
    case DialogSubmit(data) =>
      if DialogSubmitEnabled(s) then
        var req := Dispatch(s, data);
        (Issue(s, req), req)
      else (s, NoRequest)
    case Delete(id) => (s, DeleteProduct(id))
    case UpdateSettled(ok) =>
      (s.(updatePending := false, selected := if ok then None else s.selected), NoRequest)
    case CreateSettled(ok) =>
      var s' := s.(createPending := false);
      (if ok then s'.(isCreating := false, features := [], kept := None) else s', NoRequest)
    case DeleteSettled(ok) =>
      (if ok then s.(selected := None) else s, NoRequest)
  }

  /** Selecting a product edits it: the buffer holds its features (none when
      the stored list is null) and create mode is left. */
  lemma SelectLoads(s: State, p: Product)
    ensures var (s', req) := Step(s, Select(p));
      && req == NoRequest
      && s'.selected == Some(p) && !s'.isCreating
      && s'.features == (if p.fields.features.Some? then p.fields.features.value else [])
  {
  }

  /** Selecting then cancelling issues no write and leaves nothing selected,
      no create mode and an empty buffer. */
  lemma SelectThenCancel(s: State, p: Product)
    ensures var (s1, req1) := Step(s, Select(p));
      var (s2, req2) := Step(s1, Cancel);
      && req1 == NoRequest && req2 == NoRequest
      && s2.selected.None? && !s2.isCreating && s2.features == []
  {
  }

  /** Cancelling create mode keeps an earlier selection: the panel is back on
      that product with an emptied buffer, and saving it then sends an empty
      feature list for it. */
  lemma CancelCreateKeepsSelection(s: State, p: Product, data: Draft)
    requires s.isCreating && s.selected == Some(p) && !s.updatePending && !s.createPending
    ensures var (s1, _) := Step(s, Cancel);
      && s1.selected == Some(p) && !s1.isCreating && s1.features == []
      && Step(s1, Submit(data)).1 == UpdateProduct(ProductPatch(p.id, KeptPosition(s), Some(data.title),
           Some(data.description), Some(data.imageUrl), Some([])))
  {
  }

  /** The form holds the selected product whenever it holds a row and a
      product is selected. */
  predicate Coherent(s: State) {
    s.kept.Some? && s.selected.Some? ==> s.kept == s.selected
  }

  /** Every step keeps the form coherent with the selection, so an update
      writes back the position the selected product had when it was loaded. */
  lemma StepKeepsCoherent(s: State, e: Event)
    requires Coherent(s)
    ensures Coherent(Initial)
    ensures Coherent(Step(s, e).0)
    ensures var req := Step(s, e).1;
      req.UpdateProduct? && s.kept.Some? ==> req.patch.position == Some(s.selected.value.position)
  {
  }

  /** A product once selected stays in the form: a create opened right after
      the select, or after a cancel (whose reset returns the form to that
      product), carries the product's id into the insert. */
  lemma CreateAfterSelectCarriesId(s: State, p: Product, data: Draft)
    requires !s.createPending
    ensures var s1 := Step(Step(s, Select(p)).0, OpenCreate).0;
      Step(s1, DialogSubmit(data)).1 == CreateProduct(ProductFields(data.title, data.description, data.imageUrl,
                                                                    Some(p.fields.features.GetOr([]))), Some(p.id))
    ensures var s1 := Step(Step(Step(s, Select(p)).0, Cancel).0, OpenCreate).0;
      Step(s1, DialogSubmit(data)).1 == CreateProduct(ProductFields(data.title, data.description, data.imageUrl,
                                                                    Some([])), Some(p.id))
  {
  }

  /** Either cancel button empties the buffer, leaves create mode and keeps the
      row the form holds. The panel's cancel in create mode keeps the selection
      and otherwise clears it; the dialog's cancel keeps it. */
  lemma CancelResets(s: State)
    ensures var (s', req) := Step(s, Cancel);
      && req == NoRequest && s'.features == [] && !s'.isCreating && s'.kept == s.kept
      && (s.isCreating ==> s'.selected == s.selected)
      && (!s.isCreating ==> s'.selected.None?)
    ensures var (s', req) := Step(s, DialogCancel);
      && req == NoRequest && s'.features == [] && !s'.isCreating && s'.selected == s.selected && s'.kept == s.kept
  {
  }

  /** Deleting the selected product does not reset the form, so a create
      opened next sends the deleted product's id, which the delete has taken
      out of the table: the insert finds the id free. */
  lemma CreateAfterDeleteReusesId(s: State, p: Product, data: Draft, t: OrderedTable.Table<ProductFields>)
    requires !s.createPending
    ensures Step(s, Delete(p.id)).1 == DeleteProduct(p.id)
    ensures OrderedTable.Delete(t, p.id, true).Ok? && p.id !in OrderedTable.Delete(t, p.id, true).value
    ensures var s1 := Step(Step(Step(Step(s, Select(p)).0, Delete(p.id)).0, DeleteSettled(true)).0, OpenCreate).0;
      Step(s1, DialogSubmit(data)).1.CreateProduct? && Step(s1, DialogSubmit(data)).1.keptId == Some(p.id)
  {
  }

  /** A successful create resets the form to blank values but keeps the
      selection, so the panel goes on editing the selected product: saving it
      sends no position and overwrites the product's inputs with what the form
      now holds, and its features with the emptied list. */
  lemma UpdateAfterCreateBlanksSelected(s: State, p: Product, created: Draft, data: Draft)
    requires !s.updatePending && !s.createPending
    ensures var s1 := Step(Step(Step(s, Select(p)).0, OpenCreate).0, DialogSubmit(created)).0;
      var s2 := Step(s1, CreateSettled(true)).0;
      && s2.selected == Some(p) && s2.kept.None? && !s2.isCreating
      && Step(s2, Submit(data)).1 == UpdateProduct(ProductPatch(p.id, None, Some(data.title),
           Some(data.description), Some(data.imageUrl), Some([])))
  {
  }

  /** The settled mutations: a successful update or delete clears the
      selection, whichever product the delete removed; a successful create
      leaves create mode with an empty buffer. */
  lemma SettledResets(s: State)
    ensures Step(s, UpdateSettled(true)).0.selected.None?
    ensures forall id :: Step(Step(s, Delete(id)).0, DeleteSettled(true)).0.selected.None?
    ensures var s' := Step(s, CreateSettled(true)).0; !s'.isCreating && s'.features == [] && !s'.createPending
    ensures Step(s, UpdateSettled(false)).0.selected == s.selected
  {
  }

  /** Adding then removing the last entry gives the list back. */
  lemma AddThenRemove(features: seq<string>, input: string)
    requires !Text.AllWhitespace(input)
    ensures RemoveAt(AddTrimmed(features, input).0, |features|) == features
  {
    var fs := AddTrimmed(features, input).0;
    assert fs[..|features|] == features;
  }
}

=== FILE: text.dfy ===
/** The string helpers the editors apply to user input and section keys. */
module Text {

  /** The code points ECMAScript's `String.prototype.trim` strips:
      the WhiteSpace and LineTerminator productions. */
  predicate IsWhitespace(c: char) {
    || c == '\U{9}' || c == '\U{B}' || c == '\U{C}' || c == ' ' || c == '\U{A0}' || c == '\U{FEFF}'
    || c == '\U{1680}' || ('\U{2000}' <= c <= '\U{200A}') || c == '\U{202F}' || c == '\U{205F}'
    || c == '\U{3000}'
    || c == '\n' || c == '\r' || c == '\U{2028}' || c == '\U{2029}'
  }

  predicate AllWhitespace(s: string) {
    forall k | 0 <= k < |s| :: IsWhitespace(s[k])
  }

  /** The index of the first non-whitespace character at or after `i`, or `|s|`. */
  function SkipForward(s: string, i: nat): (j: nat)
    requires i <= |s|
    ensures i <= j <= |s|
    ensures forall k | i <= k < j :: IsWhitespace(s[k])
    ensures j < |s| ==> !IsWhitespace(s[j])
    decreases |s| - i
  {
    if i < |s| && IsWhitespace(s[i]) then SkipForward(s, i + 1) else i
  }

  /** The index just past the last non-whitespace character of `s[lo..j]`, or `lo`. */
  function SkipBackward(s: string, lo: nat, j: nat): (m: nat)
    requires lo <= j <= |s|
    ensures lo <= m <= j
    ensures forall k | m <= k < j :: IsWhitespace(s[k])
    ensures m > lo ==> !IsWhitespace(s[m - 1])
  {
    if j > lo && IsWhitespace(s[j - 1]) then SkipBackward(s, lo, j - 1) else j
  }

  /** `s.trim()`: the longest infix of `s` that neither starts nor ends with
      whitespace; everything cut off on either side is whitespace. The infix
      starts where the leading whitespace ends. */
  function Trim(s: string): (r: string)
    ensures var i := SkipForward(s, 0);
      && i + |r| <= |s| && r == s[i..i + |r|]
      && (forall k | 0 <= k < i :: IsWhitespace(s[k]))
      && (forall k | i + |r| <= k < |s| :: IsWhitespace(s[k]))
    ensures r != [] ==> !IsWhitespace(r[0]) && !IsWhitespace(r[|r| - 1])
    ensures r == [] <==> AllWhitespace(s)
  {
    var i := SkipForward(s, 0);
    var j := SkipBackward(s, i, |s|);
    assert i < j ==> s[i..j][0] == s[i] && !AllWhitespace(s);
    assert i < j ==> s[i..j][j - i - 1] == s[j - 1];
    s[i..j]
  }

  predicate IsLowerAscii(c: char) {
    'a' <= c <= 'z'
  }

  /** `c.toUpperCase()` on the ASCII letters. */
  function UpperAscii(c: char): (u: char)
    ensures !IsLowerAscii(u)
    ensures IsLowerAscii(c) ==> u as int == c as int - 32
    ensures !IsLowerAscii(c) ==> u == c
  {
    if IsLowerAscii(c) then (c as int - 32) as char else c
  }

  /** `s.charAt(0).toUpperCase() + s.slice(1)`: the section label shown for a key. */
  function Capitalize(s: string): (r: string)
    ensures |r| == |s|
    ensures |s| > 0 ==> r[1..] == s[1..] && !IsLowerAscii(r[0])
    ensures |s| > 0 ==> r[0] == UpperAscii(s[0])
    ensures |s| > 0 && !IsLowerAscii(s[0]) ==> r == s
  {
    if |s| == 0 then "" else [UpperAscii(s[0])] + s[1..]
  }

  /** Capitalising a label a second time changes nothing. */
  lemma CapitalizeIdempotent(s: string)
    ensures Capitalize(Capitalize(s)) == Capitalize(s)
  {
  }
}
